=== FILE: README.md ===
# AmqpSendHandler dispatch engine, in Dafny

This project models the cloud-to-device dispatch engine of the Azure IoT
service client's `AmqpSendHandler` (Java). The handler accepts messages for a
device or for a module of a device and holds them in a FIFO queue. On every
link-flow event and every 50 ms timer tick it dispatches at most one of them.
A dispatch builds the AMQP message, encodes it into a buffer that doubles
until the message fits, and allocates a delivery tag from a wrapping counter.
It records the message in an in-flight table under that tag and hands it to
the sender. An acknowledgement removes the entry for its tag and fires the
message's callback. Closing the handler fires a `Released` callback for
everything still in flight or queued, and then empties both structures.

The model is a functional state machine. `SendHandler.Handler` is an
immutable record. It holds the queue as a sequence, the in-flight table as a
map from the Java `int` tag to the entry, the tag counter, and a count of
messages ever queued. It also holds a log of every callback invocation in
order. Each public operation is a pure transition, taken as atomic. This is a
modelling choice: in Java only `sendQueuedMessages` and `close` take the state
lock, while `queueMessage` and `onMessageAcknowledged` run without it on
concurrent collections. A queued message is
identified by a serial number given to it when it is queued; in Java its
object reference plays that part. The main guarantee is proved in
`Accounting`: every queued message receives exactly one callback, on the
acknowledgement path or on the close path.

Modules, leaves first:

- `Types`: the Java `int` (`int32`), `AcknowledgementState`, the service message and `TransportMessage`.
- `Decimal`: the decimal text of a tag (`String.valueOf(int)`) and a reader for it.
- `Address`: the two target-address templates and a parser for them.
- `Envelope`: which AMQP sections the outgoing message has (sections 3.2.4, 3.2.5 and 3.2.6 of part 3 of the OASIS AMQP 1.0 specification).
- `Encoding`: the encode-retry loop with a doubling buffer.
- `DeliveryTag`: the wrapping tag counter.
- `SendHandler`: the state record and its transitions.
- `Accounting`: the exactly-once invariant, FIFO order, tag freshness, and a theorem over arbitrary event traces.

## Model

| member | source | states |
|---|---|---|
| SendHandler.Create | service/iot-service-client/src/main/java/com/microsoft/azure/sdk/iot/service/transport/amqps/AmqpSendHandler.java:54-60 | A new handler has an empty queue, an empty in-flight table and no callbacks fired. |
| SendHandler.QueueMessage | service/iot-service-client/src/main/java/com/microsoft/azure/sdk/iot/service/transport/amqps/AmqpSendHandler.java:67-70 | The device overload adds exactly one request at the tail, with a null module id. The earlier queue, the table, the tag counter and the log are unchanged. |
| SendHandler.QueueModuleMessage | service/iot-service-client/src/main/java/com/microsoft/azure/sdk/iot/service/transport/amqps/AmqpSendHandler.java:78-81 | The module overload adds exactly one request at the tail, carrying the module id. Nothing else changes. |
| SendHandler.SendQueuedMessages | service/iot-service-client/src/main/java/com/microsoft/azure/sdk/iot/service/transport/amqps/AmqpSendHandler.java:141-151 | One trigger removes at most one message, the queue head. On an empty queue the state is left exactly as it was and nothing is sent. Otherwise the head goes into the table under the pre-advance tag, every other table entry is unchanged, and the counter advances once. |
| SendHandler.SendMessage | service/iot-service-client/src/main/java/com/microsoft/azure/sdk/iot/service/transport/amqps/AmqpSendHandler.java:153-198 | A dispatch puts the entry under the counter value before it advances and leaves every other entry alone; an entry already under that key is replaced. The delivery tag handed to the sender reads back as that same value. The message is addressed to the entry's target, and the counter afterwards is not negative. |
| SendHandler.OnMessageAcknowledged | service/iot-service-client/src/main/java/com/microsoft/azure/sdk/iot/service/transport/amqps/AmqpSendHandler.java:216-227 | An unknown tag leaves the state unchanged. A known tag's entry is removed, and exactly one callback is logged with the given state, code and description and the stored context. |
| SendHandler.Close | service/iot-service-client/src/main/java/com/microsoft/azure/sdk/iot/service/transport/amqps/AmqpSendHandler.java:264-287 | Each in-flight entry, in the table's iteration order, and then each queued entry, in queue order, gets one `(Released, "", "", null)` callback. Afterwards the table and the queue are empty. |
| SendHandler.CloseTwice | service/iot-service-client/src/main/java/com/microsoft/azure/sdk/iot/service/transport/amqps/AmqpSendHandler.java:264-287 | A second close fires no callback and changes nothing. |
| SendHandler.AcknowledgedAfterClose | service/iot-service-client/src/main/java/com/microsoft/azure/sdk/iot/service/transport/amqps/AmqpSendHandler.java:218-224 | After close, an acknowledgement for any tag is ignored. |
| SendHandler.AcknowledgedTwice | service/iot-service-client/src/main/java/com/microsoft/azure/sdk/iot/service/transport/amqps/AmqpSendHandler.java:218-224 | A second acknowledgement for the same tag fires no second callback. |
| SendHandler.DispatchThenAcknowledge | service/iot-service-client/src/main/java/com/microsoft/azure/sdk/iot/service/transport/amqps/AmqpSendHandler.java:181-226 | The delivery tag given to the sender reads back as the table key. An acknowledgement for that key calls back the dispatched message, with its own callback and context. |
| Decimal.NatToString | service/iot-service-client/src/main/java/com/microsoft/azure/sdk/iot/service/transport/amqps/AmqpSendHandler.java:181 | The decimal text of a non-negative tag is a non-empty run of digits with no leading zero. |
| Decimal.IntToString | service/iot-service-client/src/main/java/com/microsoft/azure/sdk/iot/service/transport/amqps/AmqpSendHandler.java:181 | The text of any tag is non-empty and starts with '-' exactly when the tag is negative. The rest is all digits. |
| Decimal.IntToStringRoundTrip | service/iot-service-client/src/main/java/com/microsoft/azure/sdk/iot/service/transport/amqps/AmqpSendHandler.java:181 | Reading back the decimal text of any `int`, sign included, gives that `int`. |
| Decimal.IntToStringInjective | service/iot-service-client/src/main/java/com/microsoft/azure/sdk/iot/service/transport/amqps/AmqpSendHandler.java:181 | Two tags have the same decimal text if and only if they are equal. |
| Address.TargetAddress | service/iot-service-client/src/main/java/com/microsoft/azure/sdk/iot/service/transport/amqps/AmqpSendHandler.java:38-39 | Every target address starts with `/devices/` and ends with `/messages/devicebound`. |
| Address.TargetAddressRoundTrip | service/iot-service-client/src/main/java/com/microsoft/azure/sdk/iot/service/transport/amqps/AmqpSendHandler.java:158-165 | For identifiers without `/`, the address parses back to exactly its device and optional module. A null module id selects the device template and any other module id selects the module template. |
| Address.TargetAddressInjective | service/iot-service-client/src/main/java/com/microsoft/azure/sdk/iot/service/transport/amqps/AmqpSendHandler.java:158-165 | Two slash-free targets share an address if and only if they are the same device and module. |
| Envelope.ConvertToProtonMessage | service/iot-service-client/src/main/java/com/microsoft/azure/sdk/iot/service/transport/amqps/AmqpSendHandler.java:83-122 | `to` is the target path. A user id is present if and only if the message has one. Application properties are present if and only if the map is non-null and non-empty, and then they equal it. The data section is the body. |
| Envelope.ConvertRoundTrip | service/iot-service-client/src/main/java/com/microsoft/azure/sdk/iot/service/transport/amqps/AmqpSendHandler.java:83-122 | Conversion loses nothing except the difference between a null and an empty property map, and both give the same AMQP message. |
| Encoding.EncodeWithRetry | service/iot-service-client/src/main/java/com/microsoft/azure/sdk/iot/service/transport/amqps/AmqpSendHandler.java:167-180 | The buffer is 1024·2^k bytes. Every smaller buffer in the doubling sequence overflowed, and the final one holds the reported length, which is at most its capacity when the encoder never reports more than the buffer it was given. The buffer is never more than twice as large as needed. |
| Encoding.DoublingsBound | service/iot-service-client/src/main/java/com/microsoft/azure/sdk/iot/service/transport/amqps/AmqpSendHandler.java:167-180 | If 1024·2^n bytes suffice, the loop doubles at most n times, so it makes at most n+1 encode attempts. |
| DeliveryTag.Advance | service/iot-service-client/src/main/java/com/microsoft/azure/sdk/iot/service/transport/amqps/AmqpSendHandler.java:185-193 | After any dispatch the counter is in [0, MAX_INT]. It restarts at 0 from MAX_INT or from a negative value, and otherwise goes up by one. |
| DeliveryTag.AdvanceNClosedForm | service/iot-service-client/src/main/java/com/microsoft/azure/sdk/iot/service/transport/amqps/AmqpSendHandler.java:185-193 | From a non-negative start, n dispatches leave the counter at (start + n) mod 2^31. |
| DeliveryTag.AdvanceNNonNegative | service/iot-service-client/src/main/java/com/microsoft/azure/sdk/iot/service/transport/amqps/AmqpSendHandler.java:185-193 | After at least one dispatch the counter is never negative, whatever it started at. |
| DeliveryTag.AdvanceNFromNegative | service/iot-service-client/src/main/java/com/microsoft/azure/sdk/iot/service/transport/amqps/AmqpSendHandler.java:185-193 | From a negative start, the counter after n ≥ 1 dispatches is where it would be after n−1 dispatches from 0. |
| DeliveryTag.AdvanceNDistinct | service/iot-service-client/src/main/java/com/microsoft/azure/sdk/iot/service/transport/amqps/AmqpSendHandler.java:181-193 | Tags allocated by fewer than 2^31 consecutive dispatches are pairwise distinct, from any start. From a negative start the first tag is the only negative one, and the rest count up from 0. |
| DeliveryTag.AdvanceNPeriod | service/iot-service-client/src/main/java/com/microsoft/azure/sdk/iot/service/transport/amqps/AmqpSendHandler.java:185-193 | From a non-negative start, after exactly 2^31 dispatches the counter is back at its start, which is when a tag can be reused. |
| Accounting.QueueAccounted | service/iot-service-client/src/main/java/com/microsoft/azure/sdk/iot/service/transport/amqps/AmqpSendHandler.java:67-81 | Queueing keeps every message accounted for: each one ever queued is in exactly one of the queue, the table and the callback log. |
| Accounting.DispatchAccounted | service/iot-service-client/src/main/java/com/microsoft/azure/sdk/iot/service/transport/amqps/AmqpSendHandler.java:141-198 | A dispatch moves the head from the queue to the table and loses no message, provided the allocated tag is not already in flight. |
| Accounting.AcknowledgedAccounted | service/iot-service-client/src/main/java/com/microsoft/azure/sdk/iot/service/transport/amqps/AmqpSendHandler.java:216-227 | An acknowledgement moves at most one message from the table to the callback log. |
| Accounting.CloseAccounted | service/iot-service-client/src/main/java/com/microsoft/azure/sdk/iot/service/transport/amqps/AmqpSendHandler.java:264-287 | Close moves every table entry and every queued message to the callback log, each exactly once. |
| Accounting.AtMostOnce | service/iot-service-client/src/main/java/com/microsoft/azure/sdk/iot/service/transport/amqps/AmqpSendHandler.java:216-227 | While the invariant holds, no message has more than one callback, and no callback belongs to a message that was never queued. |
| Accounting.NotLost | service/iot-service-client/src/main/java/com/microsoft/azure/sdk/iot/service/transport/amqps/AmqpSendHandler.java:141-198 | A queued message that has no callback yet is still in the queue or in the table. |
| Accounting.ExactlyOnceAfterClose | service/iot-service-client/src/main/java/com/microsoft/azure/sdk/iot/service/transport/amqps/AmqpSendHandler.java:264-287 | After close, every message ever queued has exactly one callback, and no other serial has any. |
| Accounting.DispatchFifo | service/iot-service-client/src/main/java/com/microsoft/azure/sdk/iot/service/transport/amqps/AmqpSendHandler.java:141-151 | The dispatched message was queued before every message left in the queue, and the queue stays in enqueue order. |
| Accounting.QueueFifo | service/iot-service-client/src/main/java/com/microsoft/azure/sdk/iot/service/transport/amqps/AmqpSendHandler.java:67-81 | Queueing keeps the queue in enqueue order. |
| Accounting.DispatchTagsFresh | service/iot-service-client/src/main/java/com/microsoft/azure/sdk/iot/service/transport/amqps/AmqpSendHandler.java:181-193 | Until the counter reaches MAX_INT, all in-flight keys lie below the counter. So the tag being allocated is never already in flight, and the put at line 183 never overwrites an entry. |
| Accounting.DispatchOntoOccupiedTagLosesMessage | service/iot-service-client/src/main/java/com/microsoft/azure/sdk/iot/service/transport/amqps/AmqpSendHandler.java:183 | As written: a dispatch onto a tag that is still in flight keeps the table size unchanged, so the older entry leaves the table with no callback. The message invariant then fails by exactly that serial. |
| Accounting.StepValid | service/iot-service-client/src/main/java/com/microsoft/azure/sdk/iot/service/transport/amqps/AmqpSendHandler.java:129-206 | Link flow and timer ticks both run the same dispatch step. While the counter is below MAX_INT, every event (queue, link flow, timer, acknowledgement, close) preserves accounting, FIFO order and tag freshness, and raises the counter by at most one. At MAX_INT a dispatch wraps the counter to 0, and tag freshness can then fail (see Findings). |
| Accounting.RunValid | service/iot-service-client/src/main/java/com/microsoft/azure/sdk/iot/service/transport/amqps/AmqpSendHandler.java:129-206 | Along any event trace of fewer than 2^31−1 events from a counter of 0, the invariants hold and the counter has not wrapped. |
| Accounting.ExactlyOnce | service/iot-service-client/src/main/java/com/microsoft/azure/sdk/iot/service/transport/amqps/AmqpSendHandler.java:264-287 | In any such trace that ends in close, both structures are empty and every queued message has received exactly one callback. |

## Left out

- Proton transport objects are not modelled. This covers `Sender`, `Delivery`, `Session`, `Link`, `Event` and reactor scheduling, and with them `openLinks`, `closeLinks`, `onLinkInit`, `onLinkRemoteOpen` and the `super.close()` call inside `close`. They are transport plumbing of the superclass and of the Proton library. Link flow and timer ticks are two events that run the same `SendQueuedMessages` step. `SendMessage` returns the `Submission` (tag, delivery-tag text, AMQP message) whose tag text would be handed to `sender.delivery`. In Java, `sender.send` (line 196) receives the encoded bytes `msgData[0..length)` instead. `SendMessage` runs no encode step, and the encode loop is modelled on its own by `Encoding.EncodeWithRetry`.
- Proton's byte encoding of the AMQP message is not modelled. `EncodeWithRetry` takes the encoder as a parameter that overflows or reports a length for a buffer capacity. It also takes a ghost size from which every larger buffer is assumed to fit. Only the section-presence rules of `convertToProtonMessage` are modelled.
- Encoding.EncodeWithRetry: buffer sizes are unbounded naturals. The Java `msgData.length * 2` would overflow `int` past 2^30 bytes, which is not modelled.
- Envelope.ConvertToProtonMessage: the user id is kept as a string. Its conversion to bytes through the platform default charset (`getBytes()`) is not modelled. The conversion of application-property values to `Object` is a plain copy.
- Concurrency is not modelled. Every operation is one atomic transition, but in Java only `sendQueuedMessages` and `close` take `stateChangeLock`, and `queueMessage` and `onMessageAcknowledged` do not.
- SendHandler.Close: `ConcurrentHashMap` iteration order is unspecified, so `Close` takes the order as a parameter that must list every key exactly once.
- SendHandler.Close: the race with an unlocked `onMessageAcknowledged` is not modelled. If its `remove` (line 218) lands between the `get` at line 274 and the `clear` at line 278, the message gets both its acknowledgement callback and a `Released` callback. If the `remove` lands before the `get`, `get` returns `null` and line 275 throws, which aborts the close. An unlocked `queueMessage` can race with `close` too. If its add lands after the loop at lines 280-283 has passed the queue's tail and before the `clear` at line 285, the message is cleared without any callback. `ExactlyOnce` holds only because the model makes every operation atomic, which rules out both races.
- SendHandler.Close: callbacks are assumed to be non-null and to return normally. In Java a null or throwing `messageSentCallback` aborts `close`. At line 275 this happens before the `clear` at line 278, so both structures stay untouched, and a second `close` again fires `Released` for table entries that already had one. At line 282 the table is already cleared but the `clear` at line 285 is skipped, so only the queue stays full. A second `close` then fires `Released` again for the queued messages ahead of the failing one, and nothing for the table. `CloseTwice` and `ExactlyOnce` depend on this assumption.
- Accounting.DispatchAccounted: the lemma requires the allocated tag not to be in flight, because the `put` at line 183 overwrites an entry whose tag the wrapped counter reaches again (see Findings). `DispatchTagsFresh` and `RunValid` discharge this for traces of fewer than 2^31−1 events that start from a counter of 0.
- The initial value of `nextSendTag` is set in `AmqpConnectionHandler`, which is not part of this model. `Create` takes it as a parameter, and the trace theorem starts from 0.
- `AmqpConnectionHandler` turns the received delivery-tag bytes back into the `int` passed to `onMessageAcknowledged`, and it is not part of this model. `Decimal.ParseInt` is the model's own reader for the tag text.
- This class has no "closed" flag. After `close`, `queueMessage` still appends and a later trigger would still dispatch. The model keeps that behaviour, so "no further dispatch after close" is not claimed. That guarantee depends on the superclass closing the link.
- Exceptions thrown inside `sendMessage` are not modelled. One thrown before the `put` at line 183 loses the polled message, for example a `null` `transportMessage.message` at line 155, or a `NegativeArraySizeException` at line 178 once the doubling overflows `int`. One thrown after it, such as from a `null` sender at line 195, leaves the entry in the table with the counter already advanced, so `close` releases it.
- `onMessageArrived` (always `Reject`), `getThreadNamePostfix` and logging are not modelled because they hold no logic.

## Findings

| source | as written | input that shows it | evidently intended | confidence | as-written member | corrected member |
|---|---|---|---|---|---|---|
| service/iot-service-client/src/main/java/com/microsoft/azure/sdk/iot/service/transport/amqps/AmqpSendHandler.java:183 | `inProgressMessages.put(nextSendTag, …)` replaces whatever entry is already stored under the tag. | A message is dispatched under tag t and is not acknowledged. 2^31−1 further dispatches bring the counter back to t, and the next dispatch puts a new entry under t. The first message never gets a callback, not even `Released` on close. | A dispatch never reuses a tag that is still in flight, so every queued message keeps exactly one callback. | not executed | Accounting.DispatchOntoOccupiedTagLosesMessage | Accounting.DispatchTagsFresh |

=== FILE: accounting.dfy ===
/**
 The guarantee of `AmqpSendHandler`: every queued message gets exactly one
 callback, on the acknowledgement path or on the close path. It is stated as
 an invariant over serial numbers: the serials waiting in the queue, held in
 the in-flight table and already called back in the log together form each
 number below `enqueued` exactly once.
 */
module Accounting {
  import opened Types
  import opened SendHandler

  /**
   The serials of the queue and of the callback log. The two projections have
   the same shape but range over different element types (`Entry` and
   `Notification`), so each has its own definition.
   */
  function QueueSerials(q: seq<Entry>): (r: seq<nat>)
    ensures |r| == |q| && forall i :: 0 <= i < |q| ==> r[i] == q[i].serial
  {
    seq(|q|, i requires 0 <= i < |q| => q[i].serial)
  }

  function LogSerials(l: seq<Notification>): (r: seq<nat>)
    ensures |r| == |l| && forall i :: 0 <= i < |l| ==> r[i] == l[i].serial
  {
    seq(|l|, i requires 0 <= i < |l| => l[i].serial)
  }

  lemma LogSerialsAppend(a: seq<Notification>, b: seq<Notification>)
    ensures LogSerials(a + b) == LogSerials(a) + LogSerials(b)
  {
    var l := LogSerials(a + b);
    assert forall i :: 0 <= i < |a| ==> l[i] == a[i].serial;
    assert forall i :: |a| <= i < |a| + |b| ==> l[i] == b[i - |a|].serial;
  }

  /** How many callbacks the message with `serial` has received. */
  function CallbackCount(l: seq<Notification>, serial: nat): nat {
    multiset(LogSerials(l))[serial]
  }

  /** The serials held in the in-flight table, one per entry. */
  ghost function TableBag(m: map<int32, Entry>): multiset<nat>
    decreases |m|
  {
    if |m| == 0 then multiset{}
    else
      var k :| k in m;
      assert (m - {k}).Keys == m.Keys - {k};
      multiset{m[k].serial} + TableBag(m - {k})
  }

  /** Each of the serials 0 .. n-1 once. */
  ghost function Range(n: nat): multiset<nat> {
    if n == 0 then multiset{} else Range(n - 1) + multiset{n - 1}
  }

  ghost function Tracked(h: Handler): multiset<nat> {
    multiset(QueueSerials(h.queue)) + TableBag(h.inProgress) + multiset(LogSerials(h.log))
  }

  /** Every message ever queued is in exactly one place: the queue, the table, or the callback log. */
  ghost predicate Accounted(h: Handler) {
    Tracked(h) == Range(h.enqueued)
  }

  lemma {:induction false} RangeCount(n: nat, i: nat)
    ensures Range(n)[i] == if i < n then 1 else 0
  {
    if n > 0 {
      RangeCount(n - 1, i);
    }
  }

  /** Taking out any one key of the table takes out exactly its serial. */
  lemma {:induction false} TableBagRemove(m: map<int32, Entry>, k: int32)
    requires k in m
    ensures TableBag(m) == multiset{m[k].serial} + TableBag(m - {k})
    decreases |m|
  {
    var k' :| k' in m && TableBag(m) == multiset{m[k'].serial} + TableBag(m - {k'});
    if k' != k {
      var mk, mk' := m - {k}, m - {k'};
      assert mk.Keys == m.Keys - {k} && mk'.Keys == m.Keys - {k'};
      assert |mk'| < |m|;
      TableBagRemove(mk', k);
      assert mk' - {k} == mk - {k'};
      TableBagRemove(mk, k');
      assert mk'[k] == m[k] && mk[k'] == m[k'];
    }
  }

  lemma EnumeratesTail(order: seq<int32>, keys: set<int32>)
    requires |order| > 0
    requires Enumerates(order, keys)
    ensures Enumerates(order[1..], keys - {order[0]})
  {
    var tail := order[1..];
    assert forall i :: 0 <= i < |tail| ==> tail[i] == order[i + 1];
    forall k | k in keys - {order[0]}
      ensures k in tail
    {
      var i :| 0 <= i < |order| && order[i] == k;
      assert tail[i - 1] == k;
    }
  }

  lemma ReleaseInFlightCons(m: map<int32, Entry>, order: seq<int32>)
    requires |order| > 0
    requires forall i :: 0 <= i < |order| ==> order[i] in m
    ensures LogSerials(ReleaseInFlight(m, order))
         == [m[order[0]].serial] + LogSerials(ReleaseInFlight(m, order[1..]))
  {
    var whole := LogSerials(ReleaseInFlight(m, order));
    var part := LogSerials(ReleaseInFlight(m, order[1..]));
    assert forall i :: 0 <= i < |part| ==> part[i] == whole[i + 1];
  }

  /** The released list only reads the entries that `order` names. */
  lemma ReleaseInFlightAgree(m: map<int32, Entry>, m': map<int32, Entry>, order: seq<int32>)
    requires forall i :: 0 <= i < |order| ==> order[i] in m && order[i] in m' && m[order[i]] == m'[order[i]]
    ensures ReleaseInFlight(m, order) == ReleaseInFlight(m', order)
  {
  }

  lemma {:induction false} ReleaseInFlightBag(m: map<int32, Entry>, order: seq<int32>)
    requires Enumerates(order, m.Keys)
    ensures multiset(LogSerials(ReleaseInFlight(m, order))) == TableBag(m)
    decreases |order|
  {
    if |order| == 0 {
      assert m.Keys == {};
    } else {
      var k := order[0];
      var rest := m - {k};
      EnumeratesTail(order, m.Keys);
      assert rest.Keys == m.Keys - {k};
      ReleaseInFlightBag(rest, order[1..]);
      ReleaseInFlightAgree(m, rest, order[1..]);
      ReleaseInFlightCons(m, order);
      TableBagRemove(m, k);
    }
  }

  lemma CreateAccounted(initialTag: int32)
    ensures Accounted(Create(initialTag))
  {
  }

  lemma QueueAccounted(h: Handler, m: TransportMessage)
    requires Accounted(h)
    ensures Accounted(Enqueue(h, m))
  {
    var r := Enqueue(h, m);
    assert QueueSerials(r.queue) == QueueSerials(h.queue) + [h.enqueued];
  }

  /**
   A dispatch keeps every message accounted for, provided the tag it
   allocates is not already in flight (otherwise `put` would overwrite, and
   lose, the older entry).
   */
  lemma DispatchAccounted(h: Handler)
    requires Accounted(h)
    requires h.nextSendTag !in h.inProgress
    ensures Accounted(SendQueuedMessages(h).handler)
  {
    if |h.queue| > 0 {
      var r := SendQueuedMessages(h).handler;
      var t, e := h.nextSendTag, h.queue[0];
      assert r.queue == h.queue[1..] && r.inProgress == h.inProgress[t := e];
      assert r.log == h.log && r.enqueued == h.enqueued;
      QueueSerialsCons(h.queue);
      TableBagInsert(h.inProgress, t, e);
    }
  }

  /**
   The code as written, when the counter has wrapped onto a tag that is still
   in flight: the `put` replaces the older entry, so the dispatched message
   enters the table while the older one leaves it without a callback, and the
   accounting no longer balances.
   */
  lemma DispatchOntoOccupiedTagLosesMessage(h: Handler)
    requires Accounted(h)
    requires |h.queue| > 0
    requires h.nextSendTag in h.inProgress
    ensures var r := SendQueuedMessages(h).handler;
            && |r.inProgress| == |h.inProgress|
            && Tracked(r) + multiset{h.inProgress[h.nextSendTag].serial} == Range(r.enqueued)
            && !Accounted(r)
  {
    var r := SendQueuedMessages(h).handler;
    OverwriteTracked(h);
    assert r.inProgress.Keys == h.inProgress.Keys;
  }

  /** The overwriting dispatch keeps every serial in place except the one it drops from the table. */
  lemma OverwriteTracked(h: Handler)
    requires |h.queue| > 0
    requires h.nextSendTag in h.inProgress
    ensures Tracked(SendQueuedMessages(h).handler) + multiset{h.inProgress[h.nextSendTag].serial} == Tracked(h)
  {
    var r := SendQueuedMessages(h).handler;
    var t, e := h.nextSendTag, h.queue[0];
    var lost, added := multiset{h.inProgress[t].serial}, multiset{e.serial};
    assert TableBag(r.inProgress) + lost == TableBag(h.inProgress) + added by {
      assert r.inProgress == h.inProgress[t := e];
      TableBagOverwrite(h.inProgress, t, e);
    }
    assert multiset(QueueSerials(h.queue)) == added + multiset(QueueSerials(r.queue)) by {
      assert r.queue == h.queue[1..];
      QueueSerialsCons(h.queue);
    }
    assert r.log == h.log;
    var q, b, b', l := multiset(QueueSerials(r.queue)), TableBag(h.inProgress), TableBag(r.inProgress), multiset(LogSerials(h.log));
    assert Tracked(r) == q + b' + l;
    assert Tracked(h) == added + q + b + l;
    assert (q + b' + l) + lost == q + (b' + lost) + l;
  }

  /** Overwriting a table entry swaps its serial for the new one in the table's bag. */
  lemma TableBagOverwrite(m: map<int32, Entry>, t: int32, e: Entry)
    requires t in m
    ensures TableBag(m[t := e]) + multiset{m[t].serial} == TableBag(m) + multiset{e.serial}
  {
    OverwriteIsInsert(m, t, e);
    TableBagInsert(m - {t}, t, e);
    TableBagRemove(m, t);
  }

  lemma OverwriteIsInsert(m: map<int32, Entry>, t: int32, e: Entry)
    requires t in m
    ensures m[t := e] == (m - {t})[t := e]
  {
  }

  lemma QueueSerialsCons(q: seq<Entry>)
    requires |q| > 0
    ensures QueueSerials(q) == [q[0].serial] + QueueSerials(q[1..])
  {
    var whole := QueueSerials(q);
    var part := QueueSerials(q[1..]);
    assert forall i :: 0 <= i < |part| ==> part[i] == whole[i + 1];
  }

  lemma TableBagInsert(m: map<int32, Entry>, t: int32, e: Entry)
    requires t !in m
    ensures TableBag(m[t := e]) == TableBag(m) + multiset{e.serial}
  {
    assert m[t := e] - {t} == m;
    TableBagRemove(m[t := e], t);
  }

  lemma AcknowledgedAccounted(h: Handler, state: AcknowledgementState, statusCode: string, statusDescription: string, deliveryTag: int32)
    requires Accounted(h)
    ensures Accounted(OnMessageAcknowledged(h, state, statusCode, statusDescription, deliveryTag))
  {
    if deliveryTag in h.inProgress {
      var r := OnMessageAcknowledged(h, state, statusCode, statusDescription, deliveryTag);
      assert r.inProgress == h.inProgress - {deliveryTag};
      TableBagRemove(h.inProgress, deliveryTag);
      assert r.log == h.log + [r.log[|h.log|]];
      assert LogSerials(r.log) == LogSerials(h.log) + [h.inProgress[deliveryTag].serial];
    }
  }

  lemma ReleasedBag(log: seq<Notification>, m: map<int32, Entry>, order: seq<int32>, q: seq<Entry>)
    requires Enumerates(order, m.Keys)
    ensures multiset(LogSerials(log + ReleaseInFlight(m, order) + ReleaseQueued(q)))
         == multiset(LogSerials(log)) + TableBag(m) + multiset(QueueSerials(q))
  {
    var inFlight := ReleaseInFlight(m, order);
    var queued := ReleaseQueued(q);
    LogSerialsAppend(log + inFlight, queued);
    LogSerialsAppend(log, inFlight);
    assert LogSerials(queued) == QueueSerials(q);
    ReleaseInFlightBag(m, order);
  }

  lemma CloseAccounted(h: Handler, order: seq<int32>)
    requires Accounted(h)
    requires Enumerates(order, h.inProgress.Keys)
    ensures Accounted(Close(h, order))
  {
    var r := Close(h, order);
    assert r.log == h.log + ReleaseInFlight(h.inProgress, order) + ReleaseQueued(h.queue);
    ReleasedBag(h.log, h.inProgress, order, h.queue);
    assert QueueSerials(r.queue) == [];
    assert TableBag(r.inProgress) == multiset{};
  }

  /** While the invariant holds, no message has been called back twice, and none that was never queued. */
  lemma AtMostOnce(h: Handler, serial: nat)
    requires Accounted(h)
    ensures CallbackCount(h.log, serial) <= 1
    ensures serial >= h.enqueued ==> CallbackCount(h.log, serial) == 0
  {
    RangeCount(h.enqueued, serial);
  }

  /** A message that has not been called back yet is still queued or in flight. */
  lemma NotLost(h: Handler, serial: nat)
    requires Accounted(h)
    requires serial < h.enqueued
    requires CallbackCount(h.log, serial) == 0
    ensures serial in QueueSerials(h.queue) || serial in TableBag(h.inProgress)
  {
    RangeCount(h.enqueued, serial);
  }

  /** After close, every message ever queued has received exactly one callback. */
  lemma ExactlyOnceAfterClose(h: Handler, order: seq<int32>, serial: nat)
    requires Accounted(h)
    requires Enumerates(order, h.inProgress.Keys)
    ensures CallbackCount(Close(h, order).log, serial) == if serial < h.enqueued then 1 else 0
  {
    var r := Close(h, order);
    CloseAccounted(h, order);
    assert QueueSerials(r.queue) == [];
    assert TableBag(r.inProgress) == multiset{};
    RangeCount(h.enqueued, serial);
  }

  /** The queue holds serials in increasing order, all below the next serial to be issued. */
  ghost predicate QueueOrdered(h: Handler) {
    && (forall i, j :: 0 <= i < j < |h.queue| ==> h.queue[i].serial < h.queue[j].serial)
    && (forall i :: 0 <= i < |h.queue| ==> h.queue[i].serial < h.enqueued)
  }

  /**
   Dispatch order is enqueue order: the message a trigger dispatches was
   queued before every message left behind, and the queue stays ordered.
   */
  lemma DispatchFifo(h: Handler)
    requires QueueOrdered(h)
    requires |h.queue| > 0
    ensures var r := SendQueuedMessages(h).handler;
            && QueueOrdered(r)
            && forall j :: 0 <= j < |r.queue| ==> r.inProgress[h.nextSendTag].serial < r.queue[j].serial
  {
    var r := SendQueuedMessages(h).handler;
    assert forall j :: 0 <= j < |r.queue| ==> r.queue[j] == h.queue[j + 1];
  }

  lemma QueueFifo(h: Handler, m: TransportMessage)
    requires QueueOrdered(h)
    ensures QueueOrdered(Enqueue(h, m))
  {
  }

  /** Every key in flight was allocated since the counter last started at 0, and the counter is not negative. */
  ghost predicate TagsFresh(h: Handler) {
    && 0 <= h.nextSendTag
    && forall k :: k in h.inProgress ==> 0 <= k < h.nextSendTag
  }

  /** Until the counter wraps, the tag a dispatch allocates is never already in flight. */
  lemma DispatchTagsFresh(h: Handler)
    requires TagsFresh(h)
    requires h.nextSendTag < MaxInt
    ensures h.nextSendTag !in h.inProgress
    ensures TagsFresh(SendQueuedMessages(h).handler)
  {
  }

  /** The events that drive the handler. */
  datatype Event =
    | Queue(message: ServiceMessage, deviceId: string, moduleId: Option<string>, callback: Callback, context: Context)
    | LinkFlow
    | TimerTask
    | Acknowledged(state: AcknowledgementState, statusCode: string, statusDescription: string, deliveryTag: int32)
    | CloseRequested

  /** Some iteration order of a finite key set. */
  ghost function SomeOrder(keys: set<int32>): (order: seq<int32>)
    ensures Enumerates(order, keys)
    decreases keys
  {
    if keys == {} then []
    else
      var k :| k in keys;
      [k] + SomeOrder(keys - {k})
  }

  ghost function Step(h: Handler, e: Event): Handler {
    match e
    case Queue(m, d, None, c, x) => QueueMessage(h, m, d, c, x)
    case Queue(m, d, Some(mod), c, x) => QueueModuleMessage(h, m, d, Some(mod), c, x)
    case LinkFlow => SendQueuedMessages(h).handler
    case TimerTask => SendQueuedMessages(h).handler
    case Acknowledged(s, code, desc, tag) => OnMessageAcknowledged(h, s, code, desc, tag)
    case CloseRequested => Close(h, SomeOrder(h.inProgress.Keys))
  }

  /** The handler after a sequence of events, starting from a fresh handler whose counter is 0. */
  ghost function Run(events: seq<Event>): Handler
    decreases |events|
  {
    if |events| == 0 then Create(0) else Step(Run(events[..|events| - 1]), events[|events| - 1])
  }

  ghost predicate Valid(h: Handler) {
    Accounted(h) && TagsFresh(h) && QueueOrdered(h)
  }

  lemma QueueValid(h: Handler, m: TransportMessage)
    requires Valid(h)
    ensures Valid(Enqueue(h, m))
  {
    QueueAccounted(h, m);
    QueueFifo(h, m);
  }

  lemma DispatchValid(h: Handler)
    requires Valid(h)
    requires h.nextSendTag < MaxInt
    ensures Valid(SendQueuedMessages(h).handler)
    ensures SendQueuedMessages(h).handler.nextSendTag as int <= h.nextSendTag as int + 1
  {
    DispatchTagsFresh(h);
    DispatchAccounted(h);
    if |h.queue| > 0 {
      DispatchFifo(h);
    }
  }

  lemma AcknowledgedValid(h: Handler, state: AcknowledgementState, statusCode: string, statusDescription: string, deliveryTag: int32)
    requires Valid(h)
    ensures Valid(OnMessageAcknowledged(h, state, statusCode, statusDescription, deliveryTag))
  {
    AcknowledgedAccounted(h, state, statusCode, statusDescription, deliveryTag);
  }

  lemma CloseValid(h: Handler, order: seq<int32>)
    requires Valid(h)
    requires Enumerates(order, h.inProgress.Keys)
    ensures Valid(Close(h, order))
  {
    CloseAccounted(h, order);
  }

  lemma StepQueueValid(h: Handler, e: Event)
    requires Valid(h)
    requires e.Queue?
    ensures Valid(Step(h, e))
    ensures Step(h, e).nextSendTag == h.nextSendTag
  {
    var tm := TransportMessage(e.deviceId, e.moduleId, e.message, e.callback, e.context);
    assert Step(h, e) == Enqueue(h, tm);
    QueueValid(h, tm);
  }

  lemma StepDispatchValid(h: Handler, e: Event)
    requires Valid(h)
    requires h.nextSendTag < MaxInt
    requires e.LinkFlow? || e.TimerTask?
    ensures Valid(Step(h, e))
    ensures Step(h, e).nextSendTag as int <= h.nextSendTag as int + 1
  {
    assert Step(h, e) == SendQueuedMessages(h).handler;
    DispatchValid(h);
  }

  lemma StepAcknowledgedValid(h: Handler, e: Event)
    requires Valid(h)
    requires e.Acknowledged?
    ensures Valid(Step(h, e))
    ensures Step(h, e).nextSendTag == h.nextSendTag
  {
    assert Step(h, e) == OnMessageAcknowledged(h, e.state, e.statusCode, e.statusDescription, e.deliveryTag);
    AcknowledgedValid(h, e.state, e.statusCode, e.statusDescription, e.deliveryTag);
  }

  lemma StepCloseValid(h: Handler, e: Event)
    requires Valid(h)
    requires e.CloseRequested?
    ensures Valid(Step(h, e))
    ensures Step(h, e).nextSendTag == h.nextSendTag
  {
    var order := SomeOrder(h.inProgress.Keys);
    assert Step(h, e) == Close(h, order);
    CloseValid(h, order);
  }

  lemma StepValid(h: Handler, e: Event)
    requires Valid(h)
    requires h.nextSendTag < MaxInt
    ensures Valid(Step(h, e))
    ensures Step(h, e).nextSendTag as int <= h.nextSendTag as int + 1
  {
    if e.Queue? {
      StepQueueValid(h, e);
    } else if e.LinkFlow? || e.TimerTask? {
      StepDispatchValid(h, e);
    } else if e.Acknowledged? {
      StepAcknowledgedValid(h, e);
    } else {
      StepCloseValid(h, e);
    }
  }

  /** Along any run of fewer than 2^31 - 1 events, the invariants hold and the counter has not wrapped. */
  lemma {:induction false} RunValid(events: seq<Event>)
    requires |events| < MaxInt as int
    ensures Valid(Run(events))
    ensures Run(events).nextSendTag as int <= |events|
    decreases |events|
  {
    if |events| > 0 {
      var prefix := events[..|events| - 1];
      RunValid(prefix);
      StepValid(Run(prefix), events[|events| - 1]);
    }
  }

  /**
   Exactly-once completion: whatever the interleaving of queueing, triggers
   and acknowledgements, a run that ends in close leaves nothing queued or in
   flight, and every message it queued has received exactly one callback.
   */
  lemma ExactlyOnce(events: seq<Event>, serial: nat)
    requires |events| < MaxInt as int
    requires |events| > 0 && events[|events| - 1] == CloseRequested
    ensures |Run(events).queue| == 0 && |Run(events).inProgress| == 0
    ensures serial < Run(events).enqueued ==> CallbackCount(Run(events).log, serial) == 1
  {
    var prefix := events[..|events| - 1];
    RunValid(prefix);
    var h := Run(prefix);
    ExactlyOnceAfterClose(h, SomeOrder(h.inProgress.Keys), serial);
  }
}

=== FILE: address.dfy ===
/**
 The target address written into the `to` property of every outgoing
 message: `/devices/{deviceId}/messages/devicebound` for a device, and
 `/devices/{deviceId}/modules/{moduleId}/messages/devicebound` for a module
 of a device. A parser for the two shapes is the partner that shows the
 address names its target unambiguously.
 */
module Address {
  import opened Types

  const DevicesPrefix: string := "/devices/"
  const ModulesInfix: string := "/modules/"
  const DeviceboundSuffix: string := "/messages/devicebound"

  predicate NoSlash(s: string) {
    forall i :: 0 <= i < |s| ==> s[i] != '/'
  }

  /** Both templates filled in with `String.format`; a `null` module id selects the device template. */
  function TargetAddress(deviceId: string, moduleId: Option<string>): (a: string)
    ensures |a| >= |DevicesPrefix| + |DeviceboundSuffix|
    ensures a[..|DevicesPrefix|] == DevicesPrefix
    ensures a[|a| - |DeviceboundSuffix|..] == DeviceboundSuffix
  {
    match moduleId
    case None => DevicesPrefix + deviceId + DeviceboundSuffix
    case Some(m) => DevicesPrefix + deviceId + ModulesInfix + m + DeviceboundSuffix
  }

  /** The index of the first `/` in `s`, or `|s|` when there is none. */
  function FirstSlash(s: string): (i: nat)
    ensures i <= |s|
    ensures NoSlash(s[..i])
    ensures i < |s| ==> s[i] == '/'
  {
    if |s| == 0 || s[0] == '/' then 0 else 1 + FirstSlash(s[1..])
  }

  /** Recovers the device id and the optional module id from an address of either shape. */
  function ParseAddress(a: string): Option<(string, Option<string>)> {
    if |a| < |DevicesPrefix| + |DeviceboundSuffix|
       || a[..|DevicesPrefix|] != DevicesPrefix
       || a[|a| - |DeviceboundSuffix|..] != DeviceboundSuffix
    then None
    else
      var middle := a[|DevicesPrefix|..|a| - |DeviceboundSuffix|];
      var i := FirstSlash(middle);
      if i == |middle| then Some((middle, None))
      else
        var rest := middle[i..];
        if |rest| >= |ModulesInfix| && rest[..|ModulesInfix|] == ModulesInfix
           && NoSlash(rest[|ModulesInfix|..])
        then Some((middle[..i], Some(rest[|ModulesInfix|..])))
        else None
  }

  lemma {:induction false} FirstSlashAfterSegment(d: string, rest: string)
    requires NoSlash(d)
    requires |rest| > 0 && rest[0] == '/'
    ensures FirstSlash(d + rest) == |d|
    decreases |d|
  {
    if |d| > 0 {
      assert (d + rest)[1..] == d[1..] + rest;
      FirstSlashAfterSegment(d[1..], rest);
    }
  }

  /**
   For identifiers without a `/`, the address is parsed back to exactly the
   device and module it was built from.
   */
  lemma TargetAddressRoundTrip(deviceId: string, moduleId: Option<string>)
    requires NoSlash(deviceId)
    requires moduleId.Some? ==> NoSlash(moduleId.value)
    ensures ParseAddress(TargetAddress(deviceId, moduleId)) == Some((deviceId, moduleId))
  {
    var a := TargetAddress(deviceId, moduleId);
    var middle := a[|DevicesPrefix|..|a| - |DeviceboundSuffix|];
    match moduleId
    case None =>
      assert middle == deviceId;
      assert FirstSlash(middle) == |middle|;
    case Some(m) =>
      var rest := ModulesInfix + m;
      assert middle == deviceId + rest;
      FirstSlashAfterSegment(deviceId, rest);
      assert middle[|deviceId|..] == rest;
      assert middle[..|deviceId|] == deviceId;
      assert rest[|ModulesInfix|..] == m;
  }

  /** Two targets of slash-free identifiers share an address only when they are the same target. */
  lemma TargetAddressInjective(d1: string, m1: Option<string>, d2: string, m2: Option<string>)
    requires NoSlash(d1) && (m1.Some? ==> NoSlash(m1.value))
    requires NoSlash(d2) && (m2.Some? ==> NoSlash(m2.value))
    ensures TargetAddress(d1, m1) == TargetAddress(d2, m2) <==> d1 == d2 && m1 == m2
  {
    TargetAddressRoundTrip(d1, m1);
    TargetAddressRoundTrip(d2, m2);
  }
}

=== FILE: decimal.dfy ===
/**
 The decimal text of a delivery tag. The handler hands the sender the bytes
 of `String.valueOf(nextSendTag)` as the AMQP delivery tag, and the
 acknowledgement comes back keyed by the same `int`; the round trip proved
 here is what makes the decimal text a faithful name for the table key.
 */
module Decimal {
  import opened Types

  predicate IsDigit(c: char) {
    '0' <= c <= '9'
  }

  predicate AllDigits(s: string) {
    forall i :: 0 <= i < |s| ==> IsDigit(s[i])
  }

  function DigitChar(d: nat): (c: char)
    requires d < 10
    ensures IsDigit(c)
  {
    ('0' as int + d) as char
  }

  function DigitValue(c: char): (d: nat)
    requires IsDigit(c)
    ensures d < 10
  {
    c as int - '0' as int
  }

  /** The shortest decimal text of a natural number, most significant digit first. */
  function NatToString(n: nat): (s: string)
    ensures 1 <= |s|
    ensures AllDigits(s)
    ensures |s| > 1 ==> s[0] != '0'
    decreases n
  {
    if n < 10 then [DigitChar(n)] else NatToString(n / 10) + [DigitChar(n % 10)]
  }

  /** Reads a run of decimal digits, most significant first. */
  function ParseNat(s: string): nat
    requires AllDigits(s)
    decreases |s|
  {
    if |s| == 0 then 0 else 10 * ParseNat(s[..|s| - 1]) + DigitValue(s[|s| - 1])
  }

  /** `String.valueOf(int)`: a leading minus sign for negative values, then the digits. */
  function IntToString(n: int): (s: string)
    ensures 1 <= |s|
    ensures s[0] == '-' <==> n < 0
    ensures n >= 0 ==> AllDigits(s)
    ensures n < 0 ==> AllDigits(s[1..])
  {
    if n < 0 then "-" + NatToString(-n) else NatToString(n)
  }

  /** Reads the text of an integer back; `None` when the text is not one. */
  function ParseInt(s: string): Option<int> {
    if |s| > 1 && s[0] == '-' && AllDigits(s[1..]) then Some(-(ParseNat(s[1..]) as int))
    else if |s| > 0 && AllDigits(s) then Some(ParseNat(s))
    else None
  }

  lemma {:induction false} ParseNatToString(n: nat)
    ensures ParseNat(NatToString(n)) == n
  {
    if n >= 10 {
      var s := NatToString(n);
      var prefix := NatToString(n / 10);
      assert s[..|s| - 1] == prefix;
      ParseNatToString(n / 10);
    }
  }

  /** Reading back the decimal text of any tag gives that tag. */
  lemma IntToStringRoundTrip(n: int)
    ensures ParseInt(IntToString(n)) == Some(n)
  {
    var s := IntToString(n);
    if n < 0 {
      assert s[1..] == NatToString(-n);
      ParseNatToString(-n);
    } else {
      ParseNatToString(n);
    }
  }

  /** Distinct tags have distinct decimal texts. */
  lemma IntToStringInjective(a: int, b: int)
    ensures IntToString(a) == IntToString(b) <==> a == b
  {
    IntToStringRoundTrip(a);
    IntToStringRoundTrip(b);
  }
}

=== FILE: delivery_tag.dfy ===
/**
 The delivery-tag counter `nextSendTag`. After each dispatch it moves to the
 next value, restarting at 0 from `Integer.MAX_VALUE` or from any negative
 value. A dispatch uses the value before the advance, so only the first
 dispatch can use a negative tag (when the counter starts negative); no tag
 allocated after it is negative, and so none is `-1`, the transport's
 failure value.
 */
module DeliveryTag {
  import opened Types

  /** The number of distinct tags the counter cycles through: 0 .. `Integer.MAX_VALUE`. */
  const Period: int := 0x8000_0000

  /** The counter's value after one dispatch. */
  function Advance(t: int32): (r: int32)
    ensures 0 <= r
    ensures t == MaxInt || t < 0 ==> r == 0
    ensures 0 <= t < MaxInt ==> r as int == t as int + 1
  {
    if t == MaxInt || t < 0 then 0 else t + 1
  }

  /** The counter's value after `n` dispatches. */
  function AdvanceN(t: int32, n: nat): int32
    decreases n
  {
    if n == 0 then t else Advance(AdvanceN(t, n - 1))
  }

  lemma ModSucc(a: int)
    requires 0 <= a
    ensures a % Period == Period - 1 ==> (a + 1) % Period == 0
    ensures a % Period < Period - 1 ==> (a + 1) % Period == a % Period + 1
  {
  }

  /** From a non-negative start, `n` dispatches move the counter `n` places around the cycle. */
  lemma {:induction false} AdvanceNClosedForm(t: int32, n: nat)
    requires 0 <= t
    ensures AdvanceN(t, n) as int == (t as int + n) % Period
    decreases n
  {
    if n > 0 {
      AdvanceNClosedForm(t, n - 1);
      var a := t as int + n - 1;
      var x := AdvanceN(t, n - 1);
      assert x as int == a % Period;
      ModSucc(a);
      if x == MaxInt {
        assert (a + 1) % Period == 0;
      } else {
        assert Advance(x) as int == x as int + 1;
      }
    }
  }

  /** A negative start is left behind after the first dispatch; no later value is negative. */
  lemma AdvanceNNonNegative(t: int32, n: nat)
    requires n > 0
    ensures 0 <= AdvanceN(t, n)
  {
  }

  lemma ModDistinct(a: int, b: int)
    requires 0 <= a < b < a + Period
    ensures a % Period != b % Period
  {
    var qa, qb := a / Period, b / Period;
    assert a == qa * Period + a % Period;
    assert b == qb * Period + b % Period;
  }

  /** From a negative start the first dispatch moves the counter to 0, and it continues from there. */
  lemma {:induction false} AdvanceNFromNegative(t: int32, n: nat)
    requires t < 0
    requires n > 0
    ensures AdvanceN(t, n) == AdvanceN(0, n - 1)
    decreases n
  {
    if n > 1 {
      AdvanceNFromNegative(t, n - 1);
    }
  }

  /** Tags allocated by fewer than 2^31 consecutive dispatches are pairwise distinct, from any start. */
  lemma AdvanceNDistinct(t: int32, i: nat, j: nat)
    requires i < j < i + Period
    ensures AdvanceN(t, i) != AdvanceN(t, j)
  {
    if 0 <= t {
      AdvanceNClosedForm(t, i);
      AdvanceNClosedForm(t, j);
      ModDistinct(t as int + i, t as int + j);
    } else if i == 0 {
      AdvanceNNonNegative(t, j);
    } else {
      AdvanceNFromNegative(t, i);
      AdvanceNFromNegative(t, j);
      AdvanceNClosedForm(0, i - 1);
      AdvanceNClosedForm(0, j - 1);
      ModDistinct(i - 1, j - 1);
    }
  }

  /** After exactly 2^31 dispatches from a non-negative start the counter is back where it began. */
  lemma AdvanceNPeriod(t: int32)
    requires 0 <= t
    ensures AdvanceN(t, Period) == t
  {
    AdvanceNClosedForm(t, Period);
  }
}

=== FILE: encoding.dfy ===
/**
 The encode-retry loop of `sendMessage`: the AMQP message is encoded into a
 1024-byte buffer, and every time the encoder reports a buffer overflow the
 buffer is replaced by one twice as long and the encode is tried again.
 The encoder itself is Proton's; here it is a parameter that, for a buffer
 capacity, either overflows or reports the encoded length.
 */
module Encoding {

  const InitialBufferSize: nat := 1024

  datatype EncodeOutcome = Overflow | Encoded(length: nat)

  function Pow2(k: nat): (r: nat)
    ensures r >= 1
  {
    if k == 0 then 1 else 2 * Pow2(k - 1)
  }

  /** The capacity of the buffer after `k` doublings. */
  function BufferSize(k: nat): (r: nat)
    ensures r >= InitialBufferSize
  {
    InitialBufferSize * Pow2(k)
  }

  /** Every buffer of at least `need` bytes is large enough for the encoder. */
  ghost predicate FitsFrom(encode: nat -> EncodeOutcome, need: nat) {
    forall c: nat :: need <= c ==> encode(c).Encoded?
  }

  /** The encoder never reports more bytes than the buffer it was given holds. */
  ghost predicate ReportsWithin(encode: nat -> EncodeOutcome) {
    forall c: nat :: encode(c).Encoded? ==> encode(c).length <= c
  }

  /**
   Encodes with a growing buffer. The buffer ends up `1024 * 2^k` bytes long,
   every smaller buffer of the doubling sequence overflowed, the final one
   holds the encoded length, and it is never more than twice as large as
   needed.
   */
  method EncodeWithRetry(encode: nat -> EncodeOutcome, ghost need: nat) returns (capacity: nat, length: nat, k: nat)
    requires FitsFrom(encode, need)
    requires ReportsWithin(encode)
    ensures capacity == BufferSize(k)
    ensures encode(capacity) == Encoded(length)
    ensures length <= capacity
    ensures forall j :: 0 <= j < k ==> encode(BufferSize(j)) == Overflow
    ensures k == 0 || BufferSize(k - 1) < need
    ensures capacity == InitialBufferSize || capacity < 2 * need
  {
    capacity := InitialBufferSize;
    k := 0;
    var outcome := encode(capacity);
    while outcome.Overflow?
      invariant capacity == BufferSize(k)
      invariant outcome == encode(capacity)
      invariant forall j :: 0 <= j < k ==> encode(BufferSize(j)) == Overflow
      invariant k == 0 || BufferSize(k - 1) < need
      decreases need - capacity
    {
      assert capacity < need;
      capacity := capacity * 2;
      k := k + 1;
      outcome := encode(capacity);
    }
    length := outcome.length;
  }

  lemma {:induction false} BufferSizeMonotone(i: nat, j: nat)
    requires i <= j
    ensures BufferSize(i) <= BufferSize(j)
    decreases j - i
  {
    if i < j {
      BufferSizeMonotone(i, j - 1);
      assert Pow2(j) == 2 * Pow2(j - 1);
    }
  }

  /**
   The retry loop stops within the doubling that first reaches `need`: if the
   buffer after `n` doublings already holds `need` bytes, at most `n`
   doublings (and so `n + 1` encode attempts) happen.
   */
  lemma DoublingsBound(k: nat, n: nat, need: nat)
    requires k == 0 || BufferSize(k - 1) < need
    requires need <= BufferSize(n)
    ensures k <= n
  {
    if k > n {
      BufferSizeMonotone(n, k - 1);
    }
  }
}

=== FILE: envelope.dfy ===
/**
 The shape of the AMQP message the handler builds from a service message
 (section 3.2 of the OASIS AMQP 1.0 specification, part 3): a properties
 section (3.2.4) that is always present, an application-properties section
 (3.2.5) present only for a non-empty property map, and one data section
 (3.2.6) holding the body. The byte encoding of these sections is Proton's
 and is not modelled.
 */
module Envelope {
  import opened Types

  /** The properties section; `userId` is absent unless the service message has one. */
  datatype Properties = Properties(
    messageId: string,
    to: string,
    absoluteExpiryTime: Option<int>,
    correlationId: string,
    userId: Option<string>)

  datatype AmqpMessage = AmqpMessage(
    properties: Properties,
    applicationProperties: Option<map<string, string>>,
    data: seq<byte>)

  /** True when the service message carries at least one application property. */
  predicate HasProperties(m: ServiceMessage) {
    m.properties.Some? && |m.properties.value| > 0
  }

  /** Builds the AMQP message addressed to `targetPath`. */
  function ConvertToProtonMessage(targetPath: string, m: ServiceMessage): (r: AmqpMessage)
    ensures r.properties.to == targetPath
    ensures r.properties.userId.Some? <==> m.userId.Some?
    ensures r.applicationProperties.Some? <==> HasProperties(m)
    ensures r.applicationProperties.Some? ==> r.applicationProperties == m.properties
    ensures r.data == m.body
  {
    var properties := Properties(m.messageId, targetPath, m.expiryTimeUtc, m.correlationId, m.userId);
    var applicationProperties := if HasProperties(m) then m.properties else None;
    AmqpMessage(properties, applicationProperties, m.body)
  }

  /**
   The service message with a `null` property map in place of an empty one:
   the two produce the same AMQP message.
   */
  function Normalize(m: ServiceMessage): (r: ServiceMessage)
    ensures HasProperties(r) <==> HasProperties(m)
    ensures r.properties.Some? ==> |r.properties.value| > 0
  {
    if HasProperties(m) then m else m.(properties := None)
  }

  /** Reads the service-level fields back out of an AMQP message. */
  function ToServiceMessage(a: AmqpMessage): ServiceMessage {
    ServiceMessage(
      a.properties.messageId,
      a.properties.correlationId,
      a.properties.absoluteExpiryTime,
      a.properties.userId,
      a.applicationProperties,
      a.data)
  }

  /**
   Conversion loses nothing but the difference between an absent and an
   empty property map, and it ignores that difference.
   */
  lemma ConvertRoundTrip(targetPath: string, m: ServiceMessage)
    ensures ToServiceMessage(ConvertToProtonMessage(targetPath, m)) == Normalize(m)
    ensures ConvertToProtonMessage(targetPath, Normalize(m)) == ConvertToProtonMessage(targetPath, m)
  {
  }
}

=== FILE: send_handler.dfy ===
/**
 The cloud-to-device dispatch engine of `AmqpSendHandler`, as an immutable
 record and pure transitions. Each transition is taken as atomic. In Java only
 `sendQueuedMessages` and `close` hold the state lock; queueing and
 acknowledgements run without it, so treating them as atomic too is a
 modelling choice.

 The record keeps a log of every callback invocation, in order, so that the
 exactly-once guarantee can be stated. Java tells queued messages apart by
 object identity; here each queued message gets a serial number when it is
 enqueued.
 */
module SendHandler {
  import opened Types
  import opened Decimal
  import opened Address
  import opened Envelope
  import opened DeliveryTag

  /** A queued or in-flight message together with its serial number. */
  datatype Entry = Entry(serial: nat, message: TransportMessage)

  /** One invocation of a `MessageSentCallback.onMessageSent`, for the message with `serial`. */
  datatype Notification = Notification(
    serial: nat,
    callback: Callback,
    state: AcknowledgementState,
    statusCode: string,
    statusDescription: string,
    context: Context)

  /**
   `queue` is `messageQueue` (head first), `inProgress` is
   `inProgressMessages`, `nextSendTag` is the tag counter, `enqueued` counts
   the messages ever queued (and is the next serial number), and `log` holds
   the callbacks fired so far.
   */
  datatype Handler = Handler(
    queue: seq<Entry>,
    inProgress: map<int32, Entry>,
    nextSendTag: int32,
    enqueued: nat,
    log: seq<Notification>)

  /** What one dispatch hands to the Proton sender: the table key, its decimal delivery tag, and the message. */
  datatype Submission = Submission(tag: int32, deliveryTag: string, message: AmqpMessage)

  datatype DispatchResult = DispatchResult(handler: Handler, sent: Option<Submission>)

  /** A fresh handler: nothing queued, nothing in flight, no callback fired. */
  function Create(initialTag: int32): (h: Handler)
    ensures |h.queue| == 0 && |h.inProgress| == 0 && |h.log| == 0
    ensures h.enqueued == 0 && h.nextSendTag == initialTag
  {
    Handler([], map[], initialTag, 0, [])
  }

  /** Appends a request at the tail of the queue; nothing else but the serial counter changes. */
  function Enqueue(h: Handler, m: TransportMessage): (r: Handler)
    ensures |r.queue| == |h.queue| + 1
    ensures r.queue[..|h.queue|] == h.queue
    ensures r.queue[|h.queue|] == Entry(h.enqueued, m)
    ensures r.enqueued == h.enqueued + 1
    ensures r.inProgress == h.inProgress && r.nextSendTag == h.nextSendTag && r.log == h.log
  {
    h.(queue := h.queue + [Entry(h.enqueued, m)], enqueued := h.enqueued + 1)
  }

  /** `queueMessage` for a device: the queued request has a `null` module id. */
  function QueueMessage(h: Handler, message: ServiceMessage, deviceId: string, callback: Callback, context: Context): (r: Handler)
    ensures |r.queue| == |h.queue| + 1 && r.queue[..|h.queue|] == h.queue
    ensures r.queue[|h.queue|].message == TransportMessage(deviceId, None, message, callback, context)
    ensures r.inProgress == h.inProgress && r.nextSendTag == h.nextSendTag && r.log == h.log
  {
    Enqueue(h, TransportMessage(deviceId, None, message, callback, context))
  }

  /** `queueMessage` for a module of a device; a `null` module id behaves as the device overload. */
  function QueueModuleMessage(h: Handler, message: ServiceMessage, deviceId: string, moduleId: Option<string>, callback: Callback, context: Context): (r: Handler)
    ensures |r.queue| == |h.queue| + 1 && r.queue[..|h.queue|] == h.queue
    ensures r.queue[|h.queue|].message == TransportMessage(deviceId, moduleId, message, callback, context)
    ensures r.inProgress == h.inProgress && r.nextSendTag == h.nextSendTag && r.log == h.log
  {
    Enqueue(h, TransportMessage(deviceId, moduleId, message, callback, context))
  }

  /**
   `sendMessage` without the byte encoding: the entry goes into the
   in-flight table under the current counter value, the counter advances,
   and the sender receives that value's decimal text as delivery tag.
   */
  function SendMessage(h: Handler, e: Entry): (r: DispatchResult)
    ensures r.sent.Some?
    ensures r.sent.value.tag == h.nextSendTag
    ensures ParseInt(r.sent.value.deliveryTag) == Some(h.nextSendTag as int)
    ensures r.sent.value.message.properties.to == TargetAddress(e.message.deviceId, e.message.moduleId)
    ensures r.sent.value.message == ConvertToProtonMessage(TargetAddress(e.message.deviceId, e.message.moduleId), e.message.message)
    ensures r.handler.inProgress.Keys == h.inProgress.Keys + {h.nextSendTag}
    ensures r.handler.inProgress[h.nextSendTag] == e
    ensures r.handler.inProgress == h.inProgress[h.nextSendTag := e]
    ensures h.nextSendTag !in h.inProgress ==> |r.handler.inProgress| == |h.inProgress| + 1
    ensures 0 <= r.handler.nextSendTag
    ensures r.handler.queue == h.queue && r.handler.enqueued == h.enqueued && r.handler.log == h.log
  {
    var address := TargetAddress(e.message.deviceId, e.message.moduleId);
    var amqp := ConvertToProtonMessage(address, e.message.message);
    var tag := h.nextSendTag;
    IntToStringRoundTrip(tag as int);
    var h' := h.(inProgress := h.inProgress[tag := e], nextSendTag := Advance(tag));
    DispatchResult(h', Some(Submission(tag, IntToString(tag as int), amqp)))
  }

  /**
   One trigger (link flow or timer): polls at most one entry, the head of the
   queue, and dispatches it; an empty queue leaves everything as it was.
   */
  function SendQueuedMessages(h: Handler): (r: DispatchResult)
    ensures |h.queue| == 0 ==> r.handler == h && r.sent == None
    ensures |h.queue| > 0 ==> r.handler.queue == h.queue[1..]
    ensures |h.queue| > 0 ==> r.sent.Some? && r.sent.value.tag == h.nextSendTag
    ensures |h.queue| > 0 ==> r.handler.inProgress.Keys == h.inProgress.Keys + {h.nextSendTag}
    ensures |h.queue| > 0 ==> r.handler.inProgress[h.nextSendTag] == h.queue[0]
    ensures |h.queue| > 0 ==> r.handler.inProgress == h.inProgress[h.nextSendTag := h.queue[0]]
    ensures |h.queue| > 0 ==> r.handler.nextSendTag == Advance(h.nextSendTag)
    ensures r.handler.enqueued == h.enqueued && r.handler.log == h.log
  {
    if |h.queue| == 0 then DispatchResult(h, None)
    else SendMessage(h.(queue := h.queue[1..]), h.queue[0])
  }

  /** The callback an in-flight entry receives when the link is closed. */
  function ReleasedNotification(e: Entry): (n: Notification)
    ensures n.serial == e.serial && n.callback == e.message.callback
    ensures n.state == Released && n.statusCode == "" && n.statusDescription == "" && n.context == Null
  {
    Notification(e.serial, e.message.callback, Released, "", "", Null)
  }

  /**
   `onMessageAcknowledged`: an unknown tag is ignored; a known one is removed
   from the table and its callback fires once with the reported outcome and
   the context stored with the message.
   */
  function OnMessageAcknowledged(h: Handler, state: AcknowledgementState, statusCode: string, statusDescription: string, deliveryTag: int32): (r: Handler)
    ensures deliveryTag !in h.inProgress ==> r == h
    ensures deliveryTag in h.inProgress ==>
      && r.inProgress.Keys == h.inProgress.Keys - {deliveryTag}
      && |r.log| == |h.log| + 1 && r.log[..|h.log|] == h.log
      && var e := h.inProgress[deliveryTag];
         r.log[|h.log|] == Notification(e.serial, e.message.callback, state, statusCode, statusDescription, e.message.context)
    ensures forall k :: k in r.inProgress ==> k in h.inProgress && r.inProgress[k] == h.inProgress[k]
    ensures r.queue == h.queue && r.nextSendTag == h.nextSendTag && r.enqueued == h.enqueued
  {
    if deliveryTag !in h.inProgress then h
    else
      var e := h.inProgress[deliveryTag];
      var n := Notification(e.serial, e.message.callback, state, statusCode, statusDescription, e.message.context);
      h.(inProgress := h.inProgress - {deliveryTag}, log := h.log + [n])
  }

  /** `order` lists every key of the table exactly once: the table's iteration order. */
  predicate Enumerates(order: seq<int32>, keys: set<int32>) {
    && (forall i, j :: 0 <= i < j < |order| ==> order[i] != order[j])
    && (forall i :: 0 <= i < |order| ==> order[i] in keys)
    && (forall k :: k in keys ==> k in order)
  }

  /** The released callbacks for the in-flight entries, in iteration order. */
  function ReleaseInFlight(m: map<int32, Entry>, order: seq<int32>): (r: seq<Notification>)
    requires forall i :: 0 <= i < |order| ==> order[i] in m
    ensures |r| == |order|
    ensures forall i :: 0 <= i < |order| ==> r[i] == ReleasedNotification(m[order[i]])
  {
    seq(|order|, i requires 0 <= i < |order| => ReleasedNotification(m[order[i]]))
  }

  /** The released callbacks for the queued entries, in queue order. */
  function ReleaseQueued(q: seq<Entry>): (r: seq<Notification>)
    ensures |r| == |q|
    ensures forall i :: 0 <= i < |q| ==> r[i] == ReleasedNotification(q[i])
  {
    seq(|q|, i requires 0 <= i < |q| => ReleasedNotification(q[i]))
  }

  /**
   `close`: every in-flight entry, in the table's iteration `order`, and then
   every queued entry, in queue order, gets one `(Released, "", "", null)`
   callback; afterwards both the table and the queue are empty.
   */
  function Close(h: Handler, order: seq<int32>): (r: Handler)
    requires Enumerates(order, h.inProgress.Keys)
    ensures |r.queue| == 0 && |r.inProgress| == 0
    ensures |r.log| == |h.log| + |order| + |h.queue|
    ensures r.log[..|h.log|] == h.log
    ensures forall i :: 0 <= i < |order| ==> r.log[|h.log| + i] == ReleasedNotification(h.inProgress[order[i]])
    ensures forall j :: 0 <= j < |h.queue| ==> r.log[|h.log| + |order| + j] == ReleasedNotification(h.queue[j])
    ensures r.nextSendTag == h.nextSendTag && r.enqueued == h.enqueued
  {
    var released := ReleaseInFlight(h.inProgress, order) + ReleaseQueued(h.queue);
    h.(queue := [], inProgress := map[], log := h.log + released)
  }

  /** A second close fires no callback and changes nothing. */
  lemma CloseTwice(h: Handler, order: seq<int32>)
    requires Enumerates(order, h.inProgress.Keys)
    ensures Enumerates([], Close(h, order).inProgress.Keys)
    ensures Close(Close(h, order), []) == Close(h, order)
  {
  }

  /** An acknowledgement that arrives after close finds no entry and is ignored. */
  lemma AcknowledgedAfterClose(h: Handler, order: seq<int32>, state: AcknowledgementState, statusCode: string, statusDescription: string, deliveryTag: int32)
    requires Enumerates(order, h.inProgress.Keys)
    ensures OnMessageAcknowledged(Close(h, order), state, statusCode, statusDescription, deliveryTag) == Close(h, order)
  {
  }

  /** A second acknowledgement for the same tag fires no second callback. */
  lemma AcknowledgedTwice(h: Handler, state: AcknowledgementState, statusCode: string, statusDescription: string,
                          state': AcknowledgementState, statusCode': string, statusDescription': string, deliveryTag: int32)
    ensures var once := OnMessageAcknowledged(h, state, statusCode, statusDescription, deliveryTag);
            OnMessageAcknowledged(once, state', statusCode', statusDescription', deliveryTag) == once
  {
  }

  /**
   The table key of a dispatched message is recovered from the delivery tag
   handed to the sender, so the acknowledgement for that tag fires that
   message's callback with its own context.
   */
  lemma DispatchThenAcknowledge(h: Handler, state: AcknowledgementState, statusCode: string, statusDescription: string)
    requires |h.queue| > 0
    ensures var d := SendQueuedMessages(h);
            var tag := ParseInt(d.sent.value.deliveryTag);
            && tag == Some(h.nextSendTag as int)
            && var r := OnMessageAcknowledged(d.handler, state, statusCode, statusDescription, h.nextSendTag);
               && r.log == h.log + [Notification(h.queue[0].serial, h.queue[0].message.callback, state, statusCode, statusDescription, h.queue[0].message.context)]
               && r.queue == h.queue[1..]
  {
  }
}

=== FILE: types.dfy ===
/**
 Value types shared by the cloud-to-device send handler: the Java `int` used
 for delivery tags, the acknowledgement states of `MessageSentCallback`, the
 service message and the `TransportMessage` record that the handler queues.
 None of these carry behaviour of their own.
 */
module Types {

  /** Java's 32-bit signed `int`. */
  newtype int32 = x: int | -0x8000_0000 <= x < 0x8000_0000

  /** `Integer.MAX_VALUE`. */
  const MaxInt: int32 := 0x7fff_ffff

  /** An unsigned octet of a message body. */
  newtype byte = x: int | 0 <= x < 256

  /** A Java reference that may be `null`. */
  datatype Option<+T> = None | Some(value: T)

  /**
   The outcome reported to a `MessageSentCallback`: the AMQP 1.0 delivery
   states of section 3.4 of the OASIS AMQP 1.0 specification, in the order the
   Java enum declares them.
   */
  datatype AcknowledgementState = Accepted | Released | Rejected | Modified | Received

  /**
   The identity of the caller's `MessageSentCallback` object. The model takes
   every callback to be non-null and to return normally.
   */
  datatype Callback = Callback(handle: nat)

  /** The opaque caller context handed back to the callback; `Null` is Java's `null`. */
  datatype Context = Null | Object(handle: nat)

  /**
   The parts of the service-level message that the handler reads when it
   builds the AMQP envelope. `userId` and `properties` may be `null`.
   */
  datatype ServiceMessage = ServiceMessage(
    messageId: string,
    correlationId: string,
    expiryTimeUtc: Option<int>,
    userId: Option<string>,
    properties: Option<map<string, string>>,
    body: seq<byte>)

  /** One queued send request: target device, optional module, payload, callback and context. */
  datatype TransportMessage = TransportMessage(
    deviceId: string,
    moduleId: Option<string>,
    message: ServiceMessage,
    callback: Callback,
    context: Context)
}
